=== FILE: README.md ===
# mlt-whatsapp-connect, modelled in Dafny

The system is a Next.js front end for connecting WhatsApp numbers through a
hosted gateway (uazapi). A user names an instance, the app creates it on the
gateway, asks the gateway for a QR code (or a pairing code), and polls the
instance's status until the phone has paired. This project models:

- the browser-side service (`WhatsAppApiService` in lib/whatsapp-api.ts): the
  HTTP request each call sends, how a reply settles into a value or an error
  message, and the environment check of `createWhatsAppApiService`;
- the Next.js file routing that sends those requests to the route handlers
  under `/api/whatsapp/instances`, with the proof that each call whose token
  is made of ASCII letters, digits, `-` and `_` reaches the handler it means
  to reach;
- the instance-creation proxy (`POST` in app/api/whatsapp/instances/route.ts):
  admin-token check, body parse, the forwarded `instance/init` request and the
  shaping of the gateway's answer;
- the single-instance wizard (`ClientWhatsAppConnect`): its steps
  `initial → created → qr_generated → connected`, the feedback banner, the
  status polling, the two-second delay before the final step, and the phone
  number read out of the JID;
- the multi-instance list (`WhatsAppConnect`): create, connect, refresh,
  delete, the periodic refresh of connecting instances, and the status badge,
  icon and render guards of each card;
- the instance record and the object spread `{...held, ...incoming}` with
  which both components fold a gateway response into what they hold.

Every network round trip, the browser's `confirm` dialog and the environment
are inputs; the UI components are state machines over immutable records,
driven by events. Modules: `Wrappers` (Option, Result), `Text` (JavaScript
`trim`, number formatting, `split('/')`), `Instances`, `WhatsAppApi`,
`InstancesRoute`, `ClientConnect`, `ListConnect`.

Two behaviours of the code worth knowing, both modelled as written:

- The wizard declares an `error` step that no code path sets; a failed status
  check only shows the error notice and polling goes on
  (`ClientConnect.ErrorStepUnreachable`).
- The list component rejects only the empty string (`!newInstanceName`, no
  trim), so a name of spaces is sent to the gateway; only the wizard trims.

## Model

| member | source | states |
|---|---|---|
| Text.Trim | components/client-whatsapp-connect.tsx:32-40 | the trimmed name is a slice of the input with only white space cut off at either end, starts and ends with a non-space character, and is empty exactly when the input is all white space |
| Text.NatToStringRoundTrip | lib/whatsapp-api.ts:61 | the decimal text written into an error message reads back as the same status number |
| Text.NatToStringInjective | app/api/whatsapp/instances/route.ts:49 | different statuses never produce the same message text |
| Text.SplitJoin | lib/whatsapp-api.ts:68 | splitting a request path at `/` recovers the segments the path was built from when none of them contains a slash |
| Instances.Spread | components/client-whatsapp-connect.tsx:95-101 | the merged record carries every key of the response with the response's value, keeps every optional key of the held record that the response lacks, and has no keys beyond those of the two |
| Instances.SpreadUnique | components/whatsapp-connect.tsx:66 | those properties determine the merged record completely |
| Instances.SpreadIdempotent | components/whatsapp-connect.tsx:84-88 | applying the same response twice gives the same record as applying it once |
| Instances.SpreadAssociative | components/client-whatsapp-connect.tsx:71-77 | two merges in a row equal one merge with the two responses combined |
| WhatsAppApi.Request | lib/whatsapp-api.ts:47-133 | status is the only GET and delete the only DELETE; every POST carries a JSON body and content type; create sends its data, connect its phone request, disconnect the `disconnect` action; every path starts with `/api/whatsapp/instances`, create's is exactly that, and every other call's continues with `/` and its token |
| WhatsAppApi.RequestReachesIntendedRoute | lib/whatsapp-api.ts:50-125 | for a non-empty token of ASCII letters, digits, `-` and `_`, every request is dispatched by file routing to the handler for that call, carrying that token |
| WhatsAppApi.ErrorMessage | lib/whatsapp-api.ts:59-62 | a non-empty `error` member of the reply is the message; otherwise the message is the fallback that names the HTTP status; never empty |
| WhatsAppApi.FallbackNamesStatus | lib/whatsapp-api.ts:61 | the fallback message is the prefix followed by the decimal digits of the status, which read back as that status |
| WhatsAppApi.Settle | lib/whatsapp-api.ts:59-64 | a call resolves exactly when a reply arrived with a 2xx status and parsed; it resolves to the parsed body; a network failure keeps its message; a non-2xx reply fails with the error message; a 2xx reply whose body does not parse fails with the parse error's message |
| WhatsAppApi.CreateService | lib/whatsapp-api.ts:137-145 | the service is refused with the fixed message exactly when neither admin-token variable is set to a non-empty value |
| InstancesRoute.InitRequest | app/api/whatsapp/instances/route.ts:33-43 | the proxy re-sends the parsed body by POST to the gateway's `instance/init`, with the admin token in the `admintoken` header |
| InstancesRoute.Post | app/api/whatsapp/instances/route.ts:12-64 | a missing token gives 500 and an unparseable body 400, neither calling the gateway; the gateway is called exactly when both are fine; its answer shapes the reply |
| InstancesRoute.Shape | app/api/whatsapp/instances/route.ts:45-63 | a non-2xx gateway status that a JSON reply can carry (200-599 except 204, 205, 304) is passed through with its text as details; any other non-2xx status makes the reply constructor throw, which the handler turns into 500; a 2xx JSON body is relayed with status 200; anything else that throws gives 500 with its message; every reply's status is one the runtime accepts |
| InstancesRoute.AdminTokenNeverInResponse | app/api/whatsapp/instances/route.ts:14-63 | for the same gateway answer, any two configured admin tokens give the same reply: the handler adds nothing of the token to it |
| InstancesRoute.GatewayStatusPassedThrough | app/api/whatsapp/instances/route.ts:45-52 | a non-2xx gateway status a JSON reply can carry becomes the reply's status, and the reply's error names it in decimal |
| InstancesRoute.GatewayStatusRefused | app/api/whatsapp/instances/route.ts:48-62 | a non-2xx gateway status a JSON reply cannot carry (304, or outside 200-599) is not passed through: the reply is 500 `Internal server error` |
| InstancesRoute.CreateThroughProxy | app/api/whatsapp/instances/route.ts:45-55 | through the proxy, the browser's create call resolves to exactly the gateway's data on success, fails with `API Error: <status>` on a gateway error status a JSON reply can carry, and with `Internal server error` on any other |
| ClientConnect.CreateInstance | components/client-whatsapp-connect.tsx:31-60 | an all-blank name is refused with the prompt and no call; otherwise the trimmed name goes out with the wizard's system name and admin field; success stores the instance and moves to `created`, failure alerts and changes nothing |
| ClientConnect.GenerateQrCode | components/client-whatsapp-connect.tsx:63-86 | without an instance nothing happens; otherwise the banner is cleared and a connect call with an empty body is made; success merges the response (its keys win, the held record fills the gaps, no other keys appear) and moves to `qr_generated`, failure alerts |
| ClientConnect.CheckStatus | components/client-whatsapp-connect.tsx:89-130 | a confirmed pairing (connected, logged in, JID present) sets the success banner and schedules the final step; a `connecting` status sets the progress banner; a failure sets the error banner; the step never changes here |
| ClientConnect.Finalise | components/client-whatsapp-connect.tsx:111-114 | the delayed callback moves to `connected`, clears the banner and consumes one pending timer |
| ClientConnect.NextPreservesValid | components/client-whatsapp-connect.tsx:24-138 | every event keeps the wizard out of the error step, and any step past `initial` holds an instance |
| ClientConnect.ErrorStepUnreachable | components/client-whatsapp-connect.tsx:24 | from the start, no sequence of events reaches the declared `error` step |
| ClientConnect.OfferedStepsAdvance | components/client-whatsapp-connect.tsx:169-417 | any action a screen offers never moves the wizard back to an earlier step |
| ClientConnect.PollingStaysOff | components/client-whatsapp-connect.tsx:133-138 | once connected, every event the screen offers keeps the wizard connected, leaves the three-second poll off and makes no call |
| ClientConnect.PollingStaysOffAlongRun | components/client-whatsapp-connect.tsx:133-138 | from the connected step, any run of offered events stays connected with the poll off |
| ClientConnect.NoPollingOnceConnected | components/client-whatsapp-connect.tsx:89-90 | once connected, polling is off and a poll does nothing, whatever the gateway would answer |
| ClientConnect.ConnectedOnlyByFinalise | components/client-whatsapp-connect.tsx:111-114 | the only way into `connected` is a pending delayed callback firing |
| ClientConnect.ConnectedOnlyAfterConfirmation | components/client-whatsapp-connect.tsx:106-114 | the wizard reaches `connected` only if some earlier status check confirmed the pairing |
| ClientConnect.LeftmostMatchIsFirstAnchor | components/client-whatsapp-connect.tsx:143 | the leftmost match of `(\d+)@` ends at the first `@` that follows a digit |
| ClientConnect.GetPhoneNumber | components/client-whatsapp-connect.tsx:141-145 | no JID or an empty one gives none; otherwise the result is present exactly when some `@` follows a digit, and is then the whole digit run before the first such `@` |
| ClientConnect.SampleJidPhone | components/client-whatsapp-connect.tsx:141-145 | a JID of the form `<digits>@s.whatsapp.net` yields exactly its digits |
| ListConnect.UpdateByToken | components/whatsapp-connect.tsx:64-68 | the entry with the given token is merged with the response; every other entry is left as it was; order and length are kept |
| ListConnect.UpdateAbsentToken | components/whatsapp-connect.tsx:84-88 | an update for a token the list does not hold leaves the list unchanged |
| ListConnect.UpdateIdempotent | components/whatsapp-connect.tsx:84-88 | applying the same status response twice is the same as applying it once |
| ListConnect.RemoveToken | components/whatsapp-connect.tsx:100 | an entry survives exactly when its token differs from the deleted one |
| ListConnect.RemoveTokenKeepsOrder | components/whatsapp-connect.tsx:100 | the filter distributes over concatenation, so surviving entries keep their order |
| ListConnect.RemoveAbsentToken | components/whatsapp-connect.tsx:100 | deleting a token the list does not hold leaves the list unchanged |
| ListConnect.CreateInstance | components/whatsapp-connect.tsx:30-55 | an empty name does nothing; otherwise the untrimmed name goes out with the list's system name and admin field; success appends the new entry and clears the name, failure alerts and keeps the list |
| ListConnect.ConnectInstance | components/whatsapp-connect.tsx:58-77 | the phone is sent only when non-empty; success merges the response into the matching entry and clears the phone field; failure alerts and keeps the page |
| ListConnect.RefreshInstanceStatus | components/whatsapp-connect.tsx:80-92 | success merges the status into the matching entry; failure changes nothing and raises no alert |
| ListConnect.DeleteInstance | components/whatsapp-connect.tsx:95-105 | without confirmation nothing is sent; a confirmed, successful delete removes exactly the entries with that token; a failed one alerts and keeps the list |
| ListConnect.RefreshTargets | components/whatsapp-connect.tsx:108-115 | the periodic refresh polls exactly the tokens of the entries whose status is `connecting`; a single entry gives its token when connecting and nothing otherwise |
| ListConnect.RefreshTargetsInOrder | components/whatsapp-connect.tsx:110-114 | the targets of a list are the targets of its parts, in order, so each connecting entry is polled once, in list order |
| ListConnect.RefreshEach | components/whatsapp-connect.tsx:110-114 | folding the refresh results over the list leaves untouched every entry whose token was not refreshed |
| ListConnect.RefreshEachAbsorbs | components/whatsapp-connect.tsx:80-92 | when each token is refreshed once and every reply is about the record asked for, the record holding the k-th token ends up merged with the k-th reply (spread instance, reply's flags), or unchanged when that call failed |
| ListConnect.Tick | components/whatsapp-connect.tsx:107-118 | one auto-refresh round keeps the number of records and leaves the name and phone fields as they were |
| ListConnect.RefreshTargetsDistinct | components/whatsapp-connect.tsx:110-114 | when no two records share a token, a refresh round asks for no token twice |
| ListConnect.RefreshTargetAt | components/whatsapp-connect.tsx:110-114 | a connecting record's status call comes after exactly one call per connecting record before it |
| ListConnect.TickAbsorbs | components/whatsapp-connect.tsx:107-118 | when no two records share a token and every reply is about the record asked for, a refresh round leaves each connecting record merged with the reply to its own status call, or unchanged when that call failed |
| ListConnect.TickLeavesSettledEntries | components/whatsapp-connect.tsx:108-118 | when no two entries share a token, a refresh round never changes an entry that is not connecting |
| ListConnect.StatusBadge | components/whatsapp-connect.tsx:120-128 | the badge shows Connected exactly when connected and logged in, Connecting exactly when not both and the status is connecting, Disconnected otherwise |
| ListConnect.StatusIcon | components/whatsapp-connect.tsx:130-138 | the icon follows the same three cases as the badge |
| ListConnect.BadgeAndIconAgree | components/whatsapp-connect.tsx:120-138 | badge and icon always show the same state |
| ListConnect.RenderGuardsAgree | components/whatsapp-connect.tsx:221-253 | a card showing a QR or pairing code never shows the connect form and is among those the periodic refresh polls; a card offering the connect form shows the Disconnected badge |

## Left out

- Network, JSON and the `https` agent: every `fetch`, `response.json()` and `response.text()` is an input outcome (`Result` or `Upstream`); JSON serialisation of request bodies is not modelled beyond the body's value.
- Timers: the 3-second and 5-second intervals are not timed; polling is a `PollTick` event allowed while `PollingActive` holds, and the 2-second `setTimeout` is a `FinaliseTimeout` event with a count of pending callbacks.
- Concurrency: React state updates, stale closures and overlapping requests are not modelled; each action completes before the next event.
- The busy flags `creating`, `connecting` and `connectingInstance`: they only disable buttons while a call is in flight, which the sequential model never observes.
- `console.error` logging, styling, icons' CSS classes, dates and all other JSX markup; only the render guards and badge/icon choice are modelled.
- `alert` is an output field of each effect; `confirm` is a boolean input.
- WhatsAppApi.ErrorMessage: an `error` member is modelled as a string; a truthy non-string value (which JavaScript would turn into text) is not modelled.
- Instances.Spread: optional record keys other than `qrcode`, `paircode` and `profileName` are kept as opaque text in a map, and an explicit JSON `null` is not distinguished from an absent key.
- Instances.Status: only the three declared status values are modelled; an undeclared value from the gateway is not.
- The `[token]`, `[token]/connect` and `[token]/status` route handlers, app/api/test/route.ts, app/admin/page.tsx and components/ui/features-8.tsx are not part of this model; only the dispatch of requests to the handlers is.
- `disconnectInstance` is modelled as a request only; neither component calls it.
- The proxy reads the admin token once at module load; the model takes it as a parameter of each call.
- WhatsAppApi.RequestReachesIntendedRoute: the browser's URL parsing (`?`, `#`, `\`, dot segments) and the percent-decoding of `[token]` are not modelled; the lemma covers only tokens of ASCII letters, digits, `-` and `_`, which they leave unchanged.
- ListConnect.TickAbsorbs: a reply whose instance token differs from the token asked for is merged as the code merges it, but the lemma states the outcome only for replies about the record asked for.
- InstancesRoute.AdminTokenNeverInResponse: the gateway's status text and data are relayed unchanged, so a gateway that echoes the credential it was sent puts it in the reply; only what the handler adds is covered.
- InstancesRoute.Shape: the text of the error the runtime throws when it refuses a reply status is an input (`refusal`), not the runtime's actual wording.

=== FILE: client_connect.dfy ===
/**
 * The single-instance pairing screen of components/client-whatsapp-connect.tsx
 * as a state machine. Each user action, poll tick and the two-second finalise
 * timeout is a pure transition on the component's state; the outcome of the
 * service call an action makes is an input of the transition.
 */
module ClientConnect {
  import opened Wrappers
  import opened Text
  import opened Instances
  import Api = WhatsAppApi

  /** The wizard step. `Error` is declared by the component but never entered. */
  datatype Step = Initial | Created | QrGenerated | Connected | Error

  datatype FeedbackKind = SuccessNotice | ErrorNotice | ConnectingNotice

  /** The inline notice shown under the QR code. */
  datatype Feedback = Feedback(kind: FeedbackKind, message: string)

  const ConnectedMessage: string := "\U{2705} WhatsApp conectado com sucesso!"
  const FollowOnPhoneMessage: string := "\U{1F4F1} Acompanhe o status no seu celular"
  const CheckFailedMessage: string := "\U{274C} Falha na conex\U{E3}o. Gere um novo QR Code e tente novamente."

  const EmptyNameAlert: string := "Por favor, digite um nome para sua inst\U{E2}ncia."
  const CreateFailedAlert: string := "Erro ao criar inst\U{E2}ncia. Tente novamente."
  const QrFailedAlert: string := "Erro ao gerar QR Code. Tente novamente."

  const SystemName: string := "mlt-connect"
  const AdminField: string := "client-connection"

  /** The held record (`InstanceWithConnection`): the instance plus the flags of its last response. */
  datatype Session = Session(instance: Instance, connected: bool, loggedIn: bool, jid: Option<string>)

  /**
   * The component state, plus the number of two-second finalise timeouts the
   * JavaScript runtime holds and has not yet fired.
   */
  datatype Machine = Machine(
    step: Step,
    session: Option<Session>,
    feedback: Option<Feedback>,
    pendingFinalise: nat)

  const Start: Machine := Machine(Initial, None, None, 0)

  /** A transition's result: the next state, the service call made, and the alert shown. */
  datatype Effect = Effect(next: Machine, call: Option<Api.ServiceCall>, alert: Option<string>)

  /** The record built from a create response. */
  function FromResponse(r: ApiResponse): Session {
    Session(r.instance, r.connected, r.loggedIn, r.jid)
  }

  /** `{...held, ...r.instance, connected, loggedIn, jid}`. */
  function Absorb(held: Session, r: ApiResponse): Session {
    Session(Spread(held.instance, r.instance), r.connected, r.loggedIn, r.jid)
  }

  /** A session whose record has taken in `r`: the response's keys and flags win, the rest is kept. */
  predicate Absorbed(s: Session, held: Session, r: ApiResponse) {
    && Carries(s.instance, r.instance)
    && KeepsUnmatched(s.instance, held.instance, r.instance)
    && s.instance.extra.Keys == held.instance.extra.Keys + r.instance.extra.Keys
    && s.connected == r.connected && s.loggedIn == r.loggedIn && s.jid == r.jid
  }

  /** A status reply that shows a completed pairing. */
  predicate Confirmed(r: ApiResponse) {
    r.connected && r.loggedIn && Truthy(r.jid)
  }

  /** The request body of the create button. */
  function CreateRequest(name: string): Api.CreateInstanceRequest {
    Api.CreateInstanceRequest(Trim(name), SystemName, Some(AdminField), None)
  }

  /**
   * `createInstance`: a name that trims to nothing is refused with an alert and
   * no call; otherwise the trimmed name is sent and, on success, the wizard
   * moves to `Created` holding the new record. A failure changes nothing.
   */
  function CreateInstance(m: Machine, name: string, outcome: Result<ApiResponse, string>): (e: Effect)
    ensures e.call.None? <==> AllSpace(name)
    ensures AllSpace(name) ==> e.next == m && e.alert == Some(EmptyNameAlert)
    ensures e.call.Some? ==> e.call == Some(Api.CreateInstance(CreateRequest(name)))
                             && Trim(name) != [] && !IsSpace(Trim(name)[0])
    ensures e.call.Some? && outcome.Failure? ==> e.next == m && e.alert == Some(CreateFailedAlert)
    ensures e.call.Some? && outcome.Success? ==>
              && e.next == m.(step := Created, session := Some(FromResponse(outcome.value)))
              && e.alert.None?
  {
    if Trim(name) == [] then Effect(m, None, Some(EmptyNameAlert))
    else
      var call := Api.CreateInstance(CreateRequest(name));
      match outcome
      case Success(r) => Effect(m.(step := Created, session := Some(FromResponse(r))), Some(call), None)
      case Failure(_) => Effect(m, Some(call), Some(CreateFailedAlert))
  }

  /**
   * `generateQRCode`: without a record nothing happens. Otherwise the notice is
   * cleared and a connect call with an empty body is made; on success the
   * response is folded into the record and the wizard shows the QR code, on
   * failure only the cleared notice remains.
   */
  function GenerateQrCode(m: Machine, outcome: Result<ApiResponse, string>): (e: Effect)
    ensures m.session.None? ==> e == Effect(m, None, None)
    ensures m.session.Some? ==>
              && e.call == Some(Api.ConnectInstance(m.session.value.instance.token, Api.ConnectInstanceRequest(None)))
              && e.next.feedback.None?
              && e.next.pendingFinalise == m.pendingFinalise
    ensures m.session.Some? && outcome.Success? ==>
              && e.next.step == QrGenerated
              && e.next.session.Some?
              && Absorbed(e.next.session.value, m.session.value, outcome.value)
              && e.alert.None?
    ensures m.session.Some? && outcome.Failure? ==>
              e.next == m.(feedback := None) && e.alert == Some(QrFailedAlert)
  {
    match m.session
    case None => Effect(m, None, None)
    case Some(held) =>
      var call := Api.ConnectInstance(held.instance.token, Api.ConnectInstanceRequest(None));
      var cleared := m.(feedback := None);
      match outcome
      case Success(r) => Effect(cleared.(step := QrGenerated, session := Some(Absorb(held, r))), Some(call), None)
      case Failure(_) => Effect(cleared, Some(call), Some(QrFailedAlert))
  }

  /** The state in which a status check makes a call at all. */
  predicate Checks(m: Machine) {
    m.session.Some? && m.step != Step.Connected
  }

  /**
   * `checkStatus`: without a record or once connected it does nothing. Otherwise
   * it asks for the status; a confirmed pairing shows the success notice and
   * schedules the finalise timeout, a reply still `connecting` shows the
   * follow-on-phone notice, any other reply leaves the notice alone, and a failed
   * call shows the error notice. The step never changes here and no alert is shown.
   */
  function CheckStatus(m: Machine, outcome: Result<ApiResponse, string>): (e: Effect)
    ensures e.next.step == m.step && e.alert.None?
    ensures !Checks(m) ==> e == Effect(m, None, None)
    ensures Checks(m) ==> e.call == Some(Api.GetInstanceStatus(m.session.value.instance.token))
    ensures Checks(m) && outcome.Failure? ==>
              e.next == m.(feedback := Some(Feedback(ErrorNotice, CheckFailedMessage)))
    ensures Checks(m) && outcome.Success? ==>
              && e.next.session.Some?
              && Absorbed(e.next.session.value, m.session.value, outcome.value)
    ensures Checks(m) && outcome.Success? && Confirmed(outcome.value) ==>
              && e.next.feedback == Some(Feedback(SuccessNotice, ConnectedMessage))
              && e.next.pendingFinalise == m.pendingFinalise + 1
    ensures Checks(m) && outcome.Success? && !Confirmed(outcome.value) ==>
              && e.next.pendingFinalise == m.pendingFinalise
              && e.next.feedback == (if outcome.value.instance.status == Connecting
                                     then Some(Feedback(ConnectingNotice, FollowOnPhoneMessage))
                                     else m.feedback)
  {
    if !Checks(m) then Effect(m, None, None)
    else
      var held := m.session.value;
      var call := Api.GetInstanceStatus(held.instance.token);
      match outcome
      case Failure(_) =>
        Effect(m.(feedback := Some(Feedback(ErrorNotice, CheckFailedMessage))), Some(call), None)
      case Success(r) =>
        var updated := m.(session := Some(Absorb(held, r)));
        if Confirmed(r) then
          Effect(updated.(feedback := Some(Feedback(SuccessNotice, ConnectedMessage)),
                          pendingFinalise := m.pendingFinalise + 1), Some(call), None)
        else if r.instance.status == Connecting then
          Effect(updated.(feedback := Some(Feedback(ConnectingNotice, FollowOnPhoneMessage))), Some(call), None)
        else
          Effect(updated, Some(call), None)
  }

  /**
   * One finalise timeout firing: the wizard moves to `Connected` and the notice
   * is cleared. With no timeout pending there is nothing to fire.
   */
  function Finalise(m: Machine): (e: Effect)
    ensures e.call.None? && e.alert.None?
    ensures m.pendingFinalise == 0 ==> e.next == m
    ensures m.pendingFinalise > 0 ==>
              e.next == m.(step := Step.Connected, feedback := None, pendingFinalise := m.pendingFinalise - 1)
  {
    if m.pendingFinalise == 0 then Effect(m, None, None)
    else Effect(m.(step := Step.Connected, feedback := None, pendingFinalise := m.pendingFinalise - 1), None, None)
  }

  /** The events the component reacts to, each with the outcome of the call it makes. */
  datatype Event =
    | CreateClicked(name: string, createOutcome: Result<ApiResponse, string>)
    | GenerateClicked(connectOutcome: Result<ApiResponse, string>)
    | PollTick(statusOutcome: Result<ApiResponse, string>)
    | FinaliseTimeout

  function Next(m: Machine, ev: Event): Effect {
    match ev
    case CreateClicked(name, outcome) => CreateInstance(m, name, outcome)
    case GenerateClicked(outcome) => GenerateQrCode(m, outcome)
    case PollTick(outcome) => CheckStatus(m, outcome)
    case FinaliseTimeout => Finalise(m)
  }

  /** The state after a sequence of events. */
  function Run(m: Machine, evs: seq<Event>): Machine
    decreases |evs|
  {
    if evs == [] then m else Next(Run(m, evs[..|evs| - 1]), evs[|evs| - 1]).next
  }

  /** The three-second status poll runs exactly while the QR code is up and a record is held. */
  predicate PollingActive(m: Machine) {
    m.step == QrGenerated && m.session.Some?
  }

  /** Whether the screen offers an event: what is rendered and not disabled, and what the timers fire. */
  predicate Offered(m: Machine, ev: Event) {
    match ev
    case CreateClicked(name, _) => m.step == Initial && !AllSpace(name)
    case GenerateClicked(_) =>
      m.session.Some?
      && (m.step == Created
          || (m.step == QrGenerated && m.feedback.Some? && m.feedback.value.kind == ErrorNotice))
    case PollTick(_) => PollingActive(m)
    case FinaliseTimeout => m.pendingFinalise > 0
  }

  /** What holds of every state the component can be in. */
  predicate Valid(m: Machine) {
    && m.step != Error
    && (m.step != Initial ==> m.session.Some?)
    && (m.pendingFinalise > 0 ==> m.session.Some?)
  }

  /** Every event keeps the state valid, offered or not. */
  lemma NextPreservesValid(m: Machine, ev: Event)
    requires Valid(m)
    ensures Valid(Next(m, ev).next)
  {
  }

  /** No sequence of events ever reaches the declared `Error` step. */
  lemma {:induction false} ErrorStepUnreachable(evs: seq<Event>)
    ensures Valid(Run(Start, evs))
    ensures Run(Start, evs).step != Error
    decreases |evs|
  {
    if evs != [] {
      ErrorStepUnreachable(evs[..|evs| - 1]);
      NextPreservesValid(Run(Start, evs[..|evs| - 1]), evs[|evs| - 1]);
    }
  }

  function Rank(s: Step): nat {
    match s
    case Initial => 0
    case Created => 1
    case QrGenerated => 2
    case Connected => 3
    case Error => 4
  }

  /** Through what the screen offers, the wizard only moves forward. */
  lemma OfferedStepsAdvance(m: Machine, ev: Event)
    requires Valid(m) && Offered(m, ev)
    ensures Rank(Next(m, ev).next.step) >= Rank(m.step)
  {
  }

  /** Polling stops once connected: a tick there makes no call and changes nothing. */
  lemma NoPollingOnceConnected(m: Machine, outcome: Result<ApiResponse, string>)
    requires m.step == Step.Connected
    ensures !PollingActive(m)
    ensures Next(m, PollTick(outcome)) == Effect(m, None, None)
  {
  }

  /**
   * Once connected, nothing the screen offers leaves `Connected`, restarts the
   * poll, or makes a call: the poll's interval is torn down for good.
   */
  lemma PollingStaysOff(m: Machine, ev: Event)
    requires Valid(m) && m.step == Step.Connected && Offered(m, ev)
    ensures Next(m, ev).next.step == Step.Connected
    ensures !PollingActive(Next(m, ev).next)
    ensures Next(m, ev).call.None?
  {
  }

  /** Every event of the run was offered by the state it met. */
  predicate OfferedRun(m: Machine, evs: seq<Event>)
    decreases |evs|
  {
    evs == [] || (OfferedRun(m, evs[..|evs| - 1]) && Offered(Run(m, evs[..|evs| - 1]), evs[|evs| - 1]))
  }

  /** From `Connected`, every run of offered events stays there with polling off. */
  lemma {:induction false} PollingStaysOffAlongRun(m: Machine, evs: seq<Event>)
    requires Valid(m) && m.step == Step.Connected && OfferedRun(m, evs)
    ensures Valid(Run(m, evs))
    ensures Run(m, evs).step == Step.Connected && !PollingActive(Run(m, evs))
    decreases |evs|
  {
    if evs != [] {
      var before := evs[..|evs| - 1];
      PollingStaysOffAlongRun(m, before);
      NextPreservesValid(Run(m, before), evs[|evs| - 1]);
      PollingStaysOff(Run(m, before), evs[|evs| - 1]);
    }
  }

  /** The only way into `Connected` is a pending finalise timeout firing. */
  lemma ConnectedOnlyByFinalise(m: Machine, ev: Event)
    requires m.step != Step.Connected
    requires Next(m, ev).next.step == Step.Connected
    ensures ev.FinaliseTimeout? && m.pendingFinalise > 0
  {
  }

  /** A poll tick that makes a call and whose reply confirms the pairing. */
  predicate ConfirmingTick(m: Machine, ev: Event) {
    ev.PollTick? && Checks(m) && ev.statusOutcome.Success? && Confirmed(ev.statusOutcome.value)
  }

  /** Some event of the run was a confirming poll tick, in the state it met. */
  predicate SawConfirmation(m: Machine, evs: seq<Event>)
    decreases |evs|
  {
    && evs != []
    && (|| SawConfirmation(m, evs[..|evs| - 1])
        || ConfirmingTick(Run(m, evs[..|evs| - 1]), evs[|evs| - 1]))
  }

  /**
   * Whenever a run has reached `Connected` or has a finalise timeout pending, some
   * status reply during the run confirmed the pairing.
   */
  lemma {:induction false} ConnectedOnlyAfterConfirmation(evs: seq<Event>)
    requires Run(Start, evs).step == Step.Connected || Run(Start, evs).pendingFinalise > 0
    ensures SawConfirmation(Start, evs)
    decreases |evs|
  {
    var before := evs[..|evs| - 1];
    if !ConfirmingTick(Run(Start, before), evs[|evs| - 1]) {
      ConnectedOnlyAfterConfirmation(before);
    }
  }

  /** End of the maximal run of digits starting at `i`. */
  function DigitRunEnd(s: string, i: nat): (j: nat)
    requires i <= |s|
    ensures i <= j <= |s|
    ensures forall k :: i <= k < j ==> IsDigit(s[k])
    ensures j == |s| || !IsDigit(s[j])
    decreases |s| - i
  {
    if i < |s| && IsDigit(s[i]) then DigitRunEnd(s, i + 1) else i
  }

  /** Start of the maximal run of digits ending just before `j`. */
  function DigitRunStart(s: string, j: nat): (i: nat)
    requires j <= |s|
    ensures i <= j
    ensures forall k :: i <= k < j ==> IsDigit(s[k])
    ensures i == 0 || !IsDigit(s[i - 1])
  {
    if j > 0 && IsDigit(s[j - 1]) then DigitRunStart(s, j - 1) else j
  }

  /** An `@` right after a digit: where a match of `(\d+)@` can end. */
  predicate Anchor(s: string, p: int) {
    0 < p < |s| && s[p] == '@' && IsDigit(s[p - 1])
  }

  /** The first such `@`. */
  predicate FirstAnchor(s: string, p: int) {
    Anchor(s, p) && forall q :: 0 <= q < p ==> !Anchor(s, q)
  }

  /** The regular expression `(\d+)@` matches when tried at position `i`. */
  predicate MatchesAt(s: string, i: nat) {
    i < |s| && IsDigit(s[i]) && DigitRunEnd(s, i) < |s| && s[DigitRunEnd(s, i)] == '@'
  }

  /** Every anchor is where a match started at the beginning of its digit run ends. */
  lemma AnchorIsMatchEnd(s: string, p: int)
    requires Anchor(s, p)
    ensures MatchesAt(s, DigitRunStart(s, p)) && DigitRunEnd(s, DigitRunStart(s, p)) == p
  {
    var i := DigitRunStart(s, p);
    assert IsDigit(s[i]);
  }

  /** The leftmost match ends at the first anchor and starts where that anchor's digit run starts. */
  lemma LeftmostMatchIsFirstAnchor(s: string, i: nat)
    requires MatchesAt(s, i)
    requires forall k :: 0 <= k < i ==> !MatchesAt(s, k)
    ensures FirstAnchor(s, DigitRunEnd(s, i))
    ensures DigitRunStart(s, DigitRunEnd(s, i)) == i
  {
    var p := DigitRunEnd(s, i);
    assert Anchor(s, p);
    var st := DigitRunStart(s, p);
    AnchorIsMatchEnd(s, p);
    forall q | 0 <= q < p
      ensures !Anchor(s, q)
    {
      if Anchor(s, q) {
        AnchorIsMatchEnd(s, q);
      }
    }
  }

  /**
   * `getPhoneNumber`: the digits `(\d+)@` captures in the JID, or nothing for a
   * missing or empty JID or one without a match. The regular expression is run
   * the way a backtracking engine runs it, trying each start position in turn;
   * the contract states the result independently: the maximal digit run right
   * before the first `@` that has a digit before it.
   */
  method GetPhoneNumber(jid: Option<string>) returns (phone: Option<string>)
    ensures !Truthy(jid) ==> phone.None?
    ensures Truthy(jid) ==> (phone.None? <==> forall p :: !Anchor(jid.value, p))
    ensures phone.Some? ==> phone.value != [] && AllDigits(phone.value)
    ensures phone.Some? ==> exists p :: FirstAnchor(jid.value, p)
                                        && phone.value == jid.value[DigitRunStart(jid.value, p)..p]
  {
    if !Truthy(jid) {
      return None;
    }
    var s := jid.value;
    var i := 0;
    while i < |s|
      invariant 0 <= i <= |s|
      invariant forall k :: 0 <= k < i ==> !MatchesAt(s, k)
    {
      if IsDigit(s[i]) {
        var j := DigitRunEnd(s, i);
        if j < |s| && s[j] == '@' {
          LeftmostMatchIsFirstAnchor(s, i);
          return Some(s[i..j]);
        }
      }
      i := i + 1;
    }
    forall p | Anchor(s, p)
      ensures false
    {
      AnchorIsMatchEnd(s, p);
    }
    return None;
  }

  /** The pairing JID of a Brazilian number yields its digits. */
  lemma SampleJidPhone()
    ensures var s := "551199999999@s.whatsapp.net";
            FirstAnchor(s, 12) && DigitRunStart(s, 12) == 0 && s[..12] == "551199999999"
  {
    var s := "551199999999@s.whatsapp.net";
    assert Anchor(s, 12);
    assert forall q :: 0 <= q < 12 ==> IsDigit(s[q]);
    assert DigitRunStart(s, 12) == 0;
    assert |s[..12]| == 12 && forall k :: 0 <= k < 12 ==> s[..12][k] == "551199999999"[k];
  }
}

=== FILE: instances.dfy ===
/**
 * The instance record the hosted gateway returns (`WhatsAppInstance` in
 * lib/whatsapp-api.ts), the response envelope every instance call resolves to,
 * and the object-spread merge `{...held, ...incoming}` both UI components use to
 * fold a fresh response into the record they hold.
 */
module Instances {
  import opened Wrappers

  /** The three values the `status` field is declared to take. */
  datatype Status = Disconnected | Connecting | Connected

  /**
   * One gateway instance. The keys the UI reads are typed fields; every other
   * optional key of the record (profile picture, owner, chatbot settings, delays,
   * ...) is kept in `extra`, keyed by its name, with its JSON text as the value.
   * An optional key that the JSON object does not carry is `None`.
   */
  datatype Instance = Instance(
    id: string,
    token: string,
    status: Status,
    paircode: Option<string>,
    qrcode: Option<string>,
    name: string,
    profileName: Option<string>,
    systemName: string,
    created: string,
    updated: string,
    extra: map<string, string>)

  /** What create, connect and status calls resolve to. */
  datatype ApiResponse = ApiResponse(connected: bool, loggedIn: bool, jid: Option<string>, instance: Instance)

  /** Every key `x` carries appears in `r` with the same value. */
  predicate Carries(r: Instance, x: Instance) {
    && r.id == x.id && r.token == x.token && r.status == x.status && r.name == x.name
    && r.systemName == x.systemName && r.created == x.created && r.updated == x.updated
    && (x.paircode.Some? ==> r.paircode == x.paircode)
    && (x.qrcode.Some? ==> r.qrcode == x.qrcode)
    && (x.profileName.Some? ==> r.profileName == x.profileName)
    && (forall k :: k in x.extra ==> k in r.extra && r.extra[k] == x.extra[k])
  }

  /** Every optional key `held` carries and `incoming` lacks survives into `r`. */
  predicate KeepsUnmatched(r: Instance, held: Instance, incoming: Instance) {
    && (incoming.paircode.None? ==> r.paircode == held.paircode)
    && (incoming.qrcode.None? ==> r.qrcode == held.qrcode)
    && (incoming.profileName.None? ==> r.profileName == held.profileName)
    && (forall k :: k in held.extra && k !in incoming.extra ==> k in r.extra && r.extra[k] == held.extra[k])
  }

  /**
   * `{...held, ...incoming}`: the incoming record overrides, the held one fills
   * the gaps; an optional key takes `incoming`'s value when it carries one.
   */
  function Spread(held: Instance, incoming: Instance): (r: Instance)
    ensures Carries(r, incoming)
    ensures KeepsUnmatched(r, held, incoming)
    ensures r.extra.Keys == held.extra.Keys + incoming.extra.Keys
  {
    incoming.(
      paircode := if incoming.paircode.Some? then incoming.paircode else held.paircode,
      qrcode := if incoming.qrcode.Some? then incoming.qrcode else held.qrcode,
      profileName := if incoming.profileName.Some? then incoming.profileName else held.profileName,
      extra := held.extra + incoming.extra)
  }

  /** The three properties of `Spread` pin its result down: nothing else is a spread. */
  lemma SpreadUnique(held: Instance, incoming: Instance, r: Instance)
    requires Carries(r, incoming)
    requires KeepsUnmatched(r, held, incoming)
    requires r.extra.Keys == held.extra.Keys + incoming.extra.Keys
    ensures r == Spread(held, incoming)
  {
    var s := Spread(held, incoming);
    assert r.extra == s.extra by {
      forall k | k in r.extra
        ensures r.extra[k] == s.extra[k]
      {
        if k in incoming.extra {
          assert r.extra[k] == incoming.extra[k];
        } else {
          assert r.extra[k] == held.extra[k];
        }
      }
    }
  }

  /** Spreading the same response twice changes nothing the first spread did not. */
  lemma SpreadIdempotent(held: Instance, incoming: Instance)
    ensures Spread(Spread(held, incoming), incoming) == Spread(held, incoming)
  {
    var once := Spread(held, incoming);
    var twice := Spread(once, incoming);
    SpreadUnique(held, incoming, twice);
  }

  /** Two spreads in a row are one spread of the combined response. */
  lemma SpreadAssociative(a: Instance, b: Instance, c: Instance)
    ensures Spread(Spread(a, b), c) == Spread(a, Spread(b, c))
  {
    var left := Spread(Spread(a, b), c);
    assert left.extra == a.extra + (b.extra + c.extra);
    SpreadUnique(a, Spread(b, c), left);
  }
}

=== FILE: instances_route.dfy ===
/**
 * The instance-creation proxy, `POST` in app/api/whatsapp/instances/route.ts:
 * it checks the admin token, parses the request body, forwards it to the
 * gateway's `instance/init` endpoint with the admin token in a header, and
 * shapes the gateway's answer into the route's JSON reply. The body parse and
 * the gateway round trip are inputs.
 */
module InstancesRoute {
  import opened Wrappers
  import opened Text
  import Api = WhatsAppApi

  /** A parsed JSON value. */
  datatype Json =
    | Null
    | Bool(b: bool)
    | Number(n: int)
    | Str(s: string)
    | Arr(items: seq<Json>)
    | Obj(members: seq<(string, Json)>)

  const GatewayUrl: string := "https://mltcorp.uazapi.com"

  const NotConfiguredMessage: string := "WHATSAPP_ADMIN_TOKEN not configured"
  const InvalidBodyMessage: string := "Invalid JSON in request body"
  const InternalErrorMessage: string := "Internal server error"
  const ApiErrorPrefix: string := "API Error: "

  /** The request forwarded to the gateway. */
  datatype UpstreamRequest = UpstreamRequest(
    verb: Api.HttpMethod,
    url: string,
    headers: seq<(string, string)>,
    body: Json)

  /**
   * How the gateway round trip ended: `fetch` (or reading the reply) threw, or
   * a reply arrived with its status, its raw text, and the outcome of parsing
   * that text as JSON.
   */
  datatype Upstream =
    | Threw(message: string)
    | Responded(status: nat, text: string, json: Result<Json, string>)

  /** The JSON body of the route's reply. */
  datatype Envelope =
    | ErrorEnvelope(error: string, details: Option<string>)
    | Relay(data: Json)

  datatype RouteResponse = RouteResponse(status: nat, envelope: Envelope)

  /** What the handler did: its reply, and the gateway request it sent, if any. */
  datatype Handled = Handled(response: RouteResponse, outbound: Option<UpstreamRequest>)

  /** The gateway request: the parsed body re-sent to `instance/init`, authorised by the admin token. */
  function InitRequest(adminToken: string, body: Json): (r: UpstreamRequest)
    ensures r.verb == Api.POST && r.body == body
    ensures r.url == GatewayUrl + "/instance/init"
    ensures ("admintoken", adminToken) in r.headers
    ensures Api.AcceptJson in r.headers && Api.ContentTypeJson in r.headers
  {
    UpstreamRequest(Api.POST, GatewayUrl + "/instance/init",
                    [Api.AcceptJson, Api.ContentTypeJson, ("admintoken", adminToken)], body)
  }

  /**
   * The statuses the runtime's `Response` accepts together with a JSON body:
   * 200 to 599, except the null-body statuses 204, 205 and 304. Handing any
   * other status to `NextResponse.json` throws.
   */
  predicate BodyStatus(status: nat) {
    200 <= status <= 599 && status != 204 && status != 205 && status != 304
  }

  /**
   * The reply for a gateway round trip that was made. `refusal` is the message
   * of the error the runtime throws when it refuses a status; the handler's
   * `catch` turns that error into a 500 like any other.
   */
  function Shape(upstream: Upstream, refusal: string): (r: RouteResponse)
    ensures upstream.Threw? ==>
              r == RouteResponse(500, ErrorEnvelope(InternalErrorMessage, Some(upstream.message)))
    ensures upstream.Responded? && !Api.IsOk(upstream.status) && BodyStatus(upstream.status) ==>
              r == RouteResponse(upstream.status,
                                 ErrorEnvelope(ApiErrorPrefix + NatToString(upstream.status), Some(upstream.text)))
    ensures upstream.Responded? && !Api.IsOk(upstream.status) && !BodyStatus(upstream.status) ==>
              r == RouteResponse(500, ErrorEnvelope(InternalErrorMessage, Some(refusal)))
    ensures upstream.Responded? && Api.IsOk(upstream.status) && upstream.json.Success? ==>
              r == RouteResponse(200, Relay(upstream.json.value))
    ensures upstream.Responded? && Api.IsOk(upstream.status) && upstream.json.Failure? ==>
              r == RouteResponse(500, ErrorEnvelope(InternalErrorMessage, Some(upstream.json.error)))
    ensures BodyStatus(r.status)
  {
    match upstream
    case Threw(message) => RouteResponse(500, ErrorEnvelope(InternalErrorMessage, Some(message)))
    case Responded(status, text, json) =>
      if !Api.IsOk(status) then
        if BodyStatus(status) then
          RouteResponse(status, ErrorEnvelope(ApiErrorPrefix + NatToString(status), Some(text)))
        else
          RouteResponse(500, ErrorEnvelope(InternalErrorMessage, Some(refusal)))
      else
        match json
        case Success(data) => RouteResponse(200, Relay(data))
        case Failure(message) => RouteResponse(500, ErrorEnvelope(InternalErrorMessage, Some(message)))
  }

  /**
   * `POST`: a missing or empty admin token is reported first, before the body
   * is read; an unparseable body is reported next; only then is the gateway
   * called, exactly once, and its answer shaped into the reply.
   */
  function Post(adminToken: Option<string>, body: Result<Json, string>, upstream: Upstream, refusal: string): (h: Handled)
    ensures !Truthy(adminToken) ==>
              h == Handled(RouteResponse(500, ErrorEnvelope(NotConfiguredMessage, None)), None)
    ensures Truthy(adminToken) && body.Failure? ==>
              h == Handled(RouteResponse(400, ErrorEnvelope(InvalidBodyMessage, None)), None)
    ensures h.outbound.Some? <==> Truthy(adminToken) && body.Success?
    ensures h.outbound.Some? ==>
              h.outbound == Some(InitRequest(adminToken.value, body.value)) && h.response == Shape(upstream, refusal)
  {
    if !Truthy(adminToken) then
      Handled(RouteResponse(500, ErrorEnvelope(NotConfiguredMessage, None)), None)
    else if body.Failure? then
      Handled(RouteResponse(400, ErrorEnvelope(InvalidBodyMessage, None)), None)
    else
      Handled(Shape(upstream, refusal), Some(InitRequest(adminToken.value, body.value)))
  }

  /**
   * The handler itself never writes the admin token into the reply: for the
   * same gateway answer, any two configured tokens give the same status and the
   * same envelope.
   */
  lemma AdminTokenNeverInResponse(t1: string, t2: string, body: Result<Json, string>, upstream: Upstream, refusal: string)
    requires t1 != "" && t2 != ""
    ensures Post(Some(t1), body, upstream, refusal).response == Post(Some(t2), body, upstream, refusal).response
  {
  }

  /**
   * A non-OK gateway status that a JSON reply may carry is passed through, and
   * the reply's error message names it.
   */
  lemma GatewayStatusPassedThrough(token: string, body: Json, status: nat, text: string,
                                   json: Result<Json, string>, refusal: string)
    requires token != "" && !Api.IsOk(status) && BodyStatus(status)
    ensures var r := Post(Some(token), Success(body), Responded(status, text, json), refusal).response;
            && r.status == status
            && r.envelope.ErrorEnvelope?
            && r.envelope.details == Some(text)
            && r.envelope.error[..|ApiErrorPrefix|] == ApiErrorPrefix
            && AllDigits(r.envelope.error[|ApiErrorPrefix|..])
            && DigitsValue(r.envelope.error[|ApiErrorPrefix|..]) == status
  {
    SuffixNamesNumber(ApiErrorPrefix, status);
  }

  /**
   * A non-OK gateway status the runtime refuses (304, or one outside 200-599)
   * never reaches the browser: the handler's `catch` answers 500 instead.
   */
  lemma GatewayStatusRefused(token: string, body: Json, status: nat, text: string,
                             json: Result<Json, string>, refusal: string)
    requires token != "" && !Api.IsOk(status) && !BodyStatus(status)
    ensures var r := Post(Some(token), Success(body), Responded(status, text, json), refusal).response;
            && r.status == 500 && r.status != status
            && r.envelope == ErrorEnvelope(InternalErrorMessage, Some(refusal))
  {
  }

  /**
   * The `error` string of a JSON object body, when it has one: as `JSON.parse`
   * keeps the last of duplicate keys, the last `error` member decides.
   */
  function ErrorMember(members: seq<(string, Json)>): Option<string> {
    if members == [] then None
    else
      var last := members[|members| - 1];
      if last.0 == "error" then (if last.1.Str? then Some(last.1.s) else None)
      else ErrorMember(members[..|members| - 1])
  }

  /** The reply as the browser-side service reads it: status, `error` member, and parsed body. */
  function AsClientReply(r: RouteResponse): Api.Fetched<Json> {
    match r.envelope
    case ErrorEnvelope(error, details) =>
      var members := [("error", Str(error))] + (if details.Some? then [("details", Str(details.value))] else []);
      Api.Received(Api.Reply(r.status, Some(error), Success(Obj(members))))
    case Relay(data) =>
      Api.Received(Api.Reply(r.status, if data.Obj? then ErrorMember(data.members) else None, Success(data)))
  }

  /**
   * End to end through the proxy: the browser-side `createInstance` resolves to
   * exactly the gateway's data when the gateway answers OK with JSON, throws
   * `API Error: <status>` when the gateway answers with a non-OK status a JSON
   * reply can carry, and throws `Internal server error` for one it cannot.
   */
  lemma CreateThroughProxy(token: string, body: Json, upstream: Upstream, refusal: string)
    requires token != ""
    ensures var r := Api.Settle(AsClientReply(Post(Some(token), Success(body), upstream, refusal).response));
            && (upstream.Responded? && Api.IsOk(upstream.status) && upstream.json.Success? ==>
                  r == Success(upstream.json.value))
            && (upstream.Responded? && !Api.IsOk(upstream.status) && BodyStatus(upstream.status) ==>
                  r == Failure(ApiErrorPrefix + NatToString(upstream.status)))
            && (upstream.Responded? && !Api.IsOk(upstream.status) && !BodyStatus(upstream.status) ==>
                  r == Failure(InternalErrorMessage))
  {
    if upstream.Responded? && !Api.IsOk(upstream.status) {
      var m := ApiErrorPrefix + NatToString(upstream.status);
      assert m[..|ApiErrorPrefix|] == ApiErrorPrefix;
      assert m != "";
    }
  }
}

=== FILE: list_connect.dfy ===
/**
 * The multi-instance management page of components/whatsapp-connect.tsx: a list
 * of instance records keyed by their token, the actions that append to it,
 * update it in place and filter it, the five-second auto-refresh tick, and the
 * rules that decide how each record is shown.
 */
module ListConnect {
  import opened Wrappers
  import opened Text
  import opened Instances
  import Api = WhatsAppApi

  /** One listed record (`InstanceWithConnection` of this page: no `jid`). */
  datatype Entry = Entry(instance: Instance, connected: bool, loggedIn: bool)

  /** The page state: the list and the two input fields the actions read and clear. */
  datatype Page = Page(entries: seq<Entry>, newInstanceName: string, selectedPhone: string)

  /** A transition's result: the next page, the service call made, and the alert shown. */
  datatype Effect = Effect(next: Page, call: Option<Api.ServiceCall>, alert: Option<string>)

  const CreateFailedAlert: string := "Error creating instance. Please try again."
  const ConnectFailedAlert: string := "Error connecting instance. Please try again."
  const DeleteFailedAlert: string := "Error deleting instance. Please try again."

  const SystemName: string := "whatsapp-connect"
  const AdminField: string := "instance-metadata"

  function FromResponse(r: ApiResponse): Entry {
    Entry(r.instance, r.connected, r.loggedIn)
  }

  /** `{...entry, ...r.instance, connected, loggedIn}`. */
  function Absorb(e: Entry, r: ApiResponse): Entry {
    Entry(Spread(e.instance, r.instance), r.connected, r.loggedIn)
  }

  /** `entries.map(e => e.token === token ? absorb(e) : e)`: the records with that token take in the response, the rest stay as they are. */
  function UpdateByToken(es: seq<Entry>, token: string, r: ApiResponse): (out: seq<Entry>)
    ensures |out| == |es|
    ensures forall i :: 0 <= i < |es| && es[i].instance.token != token ==> out[i] == es[i]
    ensures forall i :: 0 <= i < |es| && es[i].instance.token == token ==> out[i] == Absorb(es[i], r)
  {
    if es == [] then []
    else
      var head := if es[0].instance.token == token then Absorb(es[0], r) else es[0];
      [head] + UpdateByToken(es[1..], token, r)
  }

  /** An update keyed by a token the list does not hold changes nothing. */
  lemma UpdateAbsentToken(es: seq<Entry>, token: string, r: ApiResponse)
    requires forall e :: e in es ==> e.instance.token != token
    ensures UpdateByToken(es, token, r) == es
  {
    var out := UpdateByToken(es, token, r);
    forall i | 0 <= i < |es|
      ensures out[i] == es[i]
    {
      assert es[i] in es;
    }
  }

  /** Applying the same reply twice is applying it once. */
  lemma UpdateIdempotent(es: seq<Entry>, token: string, r: ApiResponse)
    ensures UpdateByToken(UpdateByToken(es, token, r), token, r) == UpdateByToken(es, token, r)
  {
    var once := UpdateByToken(es, token, r);
    var twice := UpdateByToken(once, token, r);
    forall i | 0 <= i < |es|
      ensures twice[i] == once[i]
    {
      if es[i].instance.token == token {
        SpreadIdempotent(es[i].instance, r.instance);
      }
    }
  }

  /** `entries.filter(e => e.token !== token)`. */
  function RemoveToken(es: seq<Entry>, token: string): (out: seq<Entry>)
    ensures |out| <= |es|
    ensures forall e :: e in out <==> e in es && e.instance.token != token
  {
    if es == [] then []
    else if es[0].instance.token == token then RemoveToken(es[1..], token)
    else [es[0]] + RemoveToken(es[1..], token)
  }

  /** Filtering commutes with concatenation: the kept records stay in their original order. */
  lemma {:induction false} RemoveTokenKeepsOrder(a: seq<Entry>, b: seq<Entry>, token: string)
    ensures RemoveToken(a + b, token) == RemoveToken(a, token) + RemoveToken(b, token)
    decreases |a|
  {
    if a != [] {
      assert (a + b)[1..] == a[1..] + b;
      RemoveTokenKeepsOrder(a[1..], b, token);
    } else {
      assert a + b == b;
    }
  }

  /** A token the list does not hold removes nothing. */
  lemma {:induction false} RemoveAbsentToken(es: seq<Entry>, token: string)
    requires forall e :: e in es ==> e.instance.token != token
    ensures RemoveToken(es, token) == es
    decreases |es|
  {
    if es != [] {
      assert es[0] in es;
      assert forall e :: e in es[1..] ==> e in es;
      RemoveAbsentToken(es[1..], token);
      assert es == [es[0]] + es[1..];
    }
  }

  /** The tokens one auto-refresh tick asks the status of, in list order. */
  function RefreshTargets(es: seq<Entry>): (tokens: seq<string>)
    ensures |tokens| <= |es|
    ensures forall t :: t in tokens <==>
              exists e :: e in es && e.instance.status == Connecting && e.instance.token == t
    ensures |es| == 1 && es[0].instance.status == Connecting ==> tokens == [es[0].instance.token]
    ensures |es| == 1 && es[0].instance.status != Connecting ==> tokens == []
  {
    if es == [] then []
    else if es[0].instance.status == Connecting then [es[0].instance.token] + RefreshTargets(es[1..])
    else RefreshTargets(es[1..])
  }

  /**
   * The targets of a list are those of its parts, in order: one status call per
   * connecting record, in list order, and no token asked for twice on its account.
   */
  lemma {:induction false} RefreshTargetsInOrder(a: seq<Entry>, b: seq<Entry>)
    ensures RefreshTargets(a + b) == RefreshTargets(a) + RefreshTargets(b)
    decreases |a|
  {
    if a != [] {
      assert (a + b)[1..] == a[1..] + b;
      RefreshTargetsInOrder(a[1..], b);
    } else {
      assert a + b == b;
    }
  }

  /**
   * `createInstance`: an empty name field does nothing (a name of spaces is
   * sent as typed). On success the new record is appended after the existing
   * ones and the name field is cleared; a failure alerts and changes nothing.
   */
  function CreateInstance(p: Page, outcome: Result<ApiResponse, string>): (e: Effect)
    ensures e.call.None? <==> p.newInstanceName == ""
    ensures e.call.None? ==> e == Effect(p, None, None)
    ensures e.call.Some? ==>
              e.call == Some(Api.CreateInstance(Api.CreateInstanceRequest(p.newInstanceName, SystemName, Some(AdminField), None)))
    ensures e.call.Some? && outcome.Success? ==>
              && |e.next.entries| == |p.entries| + 1
              && e.next.entries[..|p.entries|] == p.entries
              && e.next.entries[|p.entries|] == FromResponse(outcome.value)
              && e.next.newInstanceName == ""
              && e.next.selectedPhone == p.selectedPhone
              && e.alert.None?
    ensures e.call.Some? && outcome.Failure? ==> e.next == p && e.alert == Some(CreateFailedAlert)
  {
    if p.newInstanceName == "" then Effect(p, None, None)
    else
      var call := Api.CreateInstance(Api.CreateInstanceRequest(p.newInstanceName, SystemName, Some(AdminField), None));
      match outcome
      case Success(r) =>
        assert (p.entries + [FromResponse(r)])[..|p.entries|] == p.entries;
        Effect(p.(entries := p.entries + [FromResponse(r)], newInstanceName := ""), Some(call), None)
      case Failure(_) => Effect(p, Some(call), Some(CreateFailedAlert))
  }

  /**
   * `connectInstance`: the phone is sent only when it is non-empty. On success
   * the records with that token take in the reply and the phone field is
   * cleared; a failure alerts and changes nothing.
   */
  function ConnectInstance(p: Page, token: string, phone: Option<string>, outcome: Result<ApiResponse, string>): (e: Effect)
    ensures e.call.Some? && e.call.value.ConnectInstance? && e.call.value.token == token
    ensures e.call.value.request.phone.Some? <==> Truthy(phone)
    ensures e.call.value.request.phone.Some? ==> e.call.value.request.phone == phone
    ensures outcome.Success? ==>
              && e.next == p.(entries := UpdateByToken(p.entries, token, outcome.value), selectedPhone := "")
              && e.alert.None?
    ensures outcome.Failure? ==> e.next == p && e.alert == Some(ConnectFailedAlert)
  {
    var call := Api.ConnectInstance(token, Api.ConnectInstanceRequest(if Truthy(phone) then phone else None));
    match outcome
    case Success(r) => Effect(p.(entries := UpdateByToken(p.entries, token, r), selectedPhone := ""), Some(call), None)
    case Failure(_) => Effect(p, Some(call), Some(ConnectFailedAlert))
  }

  /** `refreshInstanceStatus`: a reply updates the records with that token; a failure is silent and changes nothing. */
  function RefreshInstanceStatus(p: Page, token: string, outcome: Result<ApiResponse, string>): (e: Effect)
    ensures e.call == Some(Api.GetInstanceStatus(token)) && e.alert.None?
    ensures outcome.Success? ==> e.next == p.(entries := UpdateByToken(p.entries, token, outcome.value))
    ensures outcome.Failure? ==> e.next == p
  {
    var call := Api.GetInstanceStatus(token);
    match outcome
    case Success(r) => Effect(p.(entries := UpdateByToken(p.entries, token, r)), Some(call), None)
    case Failure(_) => Effect(p, Some(call), None)
  }

  /**
   * `deleteInstance`: declining the confirmation makes no call. A successful
   * delete drops the records with that token; a failure alerts and keeps them.
   */
  function DeleteInstance(p: Page, token: string, confirmed: bool, outcome: Result<bool, string>): (e: Effect)
    ensures !confirmed ==> e == Effect(p, None, None)
    ensures confirmed ==> e.call == Some(Api.DeleteInstance(token))
    ensures confirmed && outcome.Success? ==>
              e.next == p.(entries := RemoveToken(p.entries, token)) && e.alert.None?
    ensures confirmed && outcome.Failure? ==> e.next == p && e.alert == Some(DeleteFailedAlert)
  {
    if !confirmed then Effect(p, None, None)
    else
      var call := Api.DeleteInstance(token);
      match outcome
      case Success(_) => Effect(p.(entries := RemoveToken(p.entries, token)), Some(call), None)
      case Failure(_) => Effect(p, Some(call), Some(DeleteFailedAlert))
  }

  /** The page after the replies to a sequence of status calls land, in order. */
  function RefreshEach(p: Page, tokens: seq<string>, outcomes: seq<Result<ApiResponse, string>>): (q: Page)
    requires |tokens| == |outcomes|
    ensures |q.entries| == |p.entries|
    ensures q.newInstanceName == p.newInstanceName && q.selectedPhone == p.selectedPhone
    ensures forall i :: 0 <= i < |p.entries| && p.entries[i].instance.token !in tokens ==>
              q.entries[i] == p.entries[i]
    decreases |tokens|
  {
    if tokens == [] then p
    else RefreshEach(RefreshInstanceStatus(p, tokens[0], outcomes[0]).next, tokens[1..], outcomes[1..])
  }

  predicate Distinct(tokens: seq<string>) {
    forall a, b :: 0 <= a < b < |tokens| ==> tokens[a] != tokens[b]
  }

  /** Every reply that arrived is about the record it was asked for. */
  predicate RepliesMatch(tokens: seq<string>, outcomes: seq<Result<ApiResponse, string>>)
    requires |tokens| == |outcomes|
  {
    forall j :: 0 <= j < |outcomes| && outcomes[j].Success? ==> outcomes[j].value.instance.token == tokens[j]
  }

  /** A record after its status call: merged with the reply, or unchanged when the call failed. */
  predicate Refreshed(before: Entry, outcome: Result<ApiResponse, string>, after: Entry) {
    if outcome.Success? then after == Absorb(before, outcome.value) else after == before
  }

  /**
   * With each token asked for once and each reply about its own record, the
   * record holding the k-th token ends up having taken in the k-th reply, or
   * unchanged when that call failed.
   */
  lemma {:induction false} RefreshEachAbsorbs(p: Page, tokens: seq<string>, outcomes: seq<Result<ApiResponse, string>>, i: nat, k: nat)
    requires |tokens| == |outcomes| && Distinct(tokens) && RepliesMatch(tokens, outcomes)
    requires i < |p.entries| && k < |tokens| && p.entries[i].instance.token == tokens[k]
    ensures Refreshed(p.entries[i], outcomes[k], RefreshEach(p, tokens, outcomes).entries[i])
    decreases |tokens|
  {
    var q := RefreshInstanceStatus(p, tokens[0], outcomes[0]).next;
    assert RefreshEach(p, tokens, outcomes) == RefreshEach(q, tokens[1..], outcomes[1..]);
    if k == 0 {
      assert q.entries[i].instance.token == tokens[0];
      assert tokens[0] !in tokens[1..] by {
        forall j | 0 <= j < |tokens[1..]| ensures tokens[1..][j] != tokens[0] {
          assert tokens[1..][j] == tokens[j + 1];
        }
      }
    } else {
      assert q.entries[i] == p.entries[i];
      assert RepliesMatch(tokens[1..], outcomes[1..]) by {
        forall j | 0 <= j < |outcomes[1..]| && outcomes[1..][j].Success?
          ensures outcomes[1..][j].value.instance.token == tokens[1..][j]
        {
          assert outcomes[1..][j] == outcomes[j + 1];
        }
      }
      assert Distinct(tokens[1..]) by {
        forall a, b | 0 <= a < b < |tokens[1..]| ensures tokens[1..][a] != tokens[1..][b] {
          assert tokens[1..][a] == tokens[a + 1] && tokens[1..][b] == tokens[b + 1];
        }
      }
      RefreshEachAbsorbs(q, tokens[1..], outcomes[1..], i, k - 1);
    }
  }

  /** One auto-refresh tick: a status call for each connecting record, each reply applied. */
  function Tick(p: Page, outcomes: seq<Result<ApiResponse, string>>): (q: Page)
    requires |outcomes| == |RefreshTargets(p.entries)|
    ensures |q.entries| == |p.entries|
    ensures q.newInstanceName == p.newInstanceName && q.selectedPhone == p.selectedPhone
  {
    RefreshEach(p, RefreshTargets(p.entries), outcomes)
  }

  predicate UniqueTokens(es: seq<Entry>) {
    forall i, j :: 0 <= i < j < |es| ==> es[i].instance.token != es[j].instance.token
  }

  /** With one record per token, no token is asked for twice in a tick. */
  lemma {:induction false} RefreshTargetsDistinct(es: seq<Entry>)
    requires UniqueTokens(es)
    ensures Distinct(RefreshTargets(es))
    decreases |es|
  {
    if es != [] {
      assert UniqueTokens(es[1..]) by {
        forall a, b | 0 <= a < b < |es[1..]| ensures es[1..][a].instance.token != es[1..][b].instance.token {
          assert es[1..][a] == es[a + 1] && es[1..][b] == es[b + 1];
        }
      }
      RefreshTargetsDistinct(es[1..]);
      if es[0].instance.status == Connecting {
        var rest := RefreshTargets(es[1..]);
        assert es[0].instance.token !in rest;
        var all := [es[0].instance.token] + rest;
        forall a, b | 0 <= a < b < |all| ensures all[a] != all[b] {
          assert all[b] == rest[b - 1];
          if a > 0 {
            assert all[a] == rest[a - 1];
          }
        }
      }
    }
  }

  /**
   * The position of a connecting record's call in a tick: one call per
   * connecting record before it.
   */
  lemma RefreshTargetAt(es: seq<Entry>, i: nat)
    requires i < |es| && es[i].instance.status == Connecting
    ensures |RefreshTargets(es[..i])| < |RefreshTargets(es)|
    ensures RefreshTargets(es)[|RefreshTargets(es[..i])|] == es[i].instance.token
  {
    assert es == es[..i] + ([es[i]] + es[i + 1..]);
    RefreshTargetsInOrder(es[..i], [es[i]] + es[i + 1..]);
    RefreshTargetsInOrder([es[i]], es[i + 1..]);
  }

  /**
   * A tick with one record per token, whose replies are each about the record
   * asked for, leaves every connecting record having taken in the reply to its
   * own status call (the one call made for its token), or unchanged when that
   * call failed.
   */
  lemma TickAbsorbs(p: Page, outcomes: seq<Result<ApiResponse, string>>, i: nat)
    requires |outcomes| == |RefreshTargets(p.entries)|
    requires UniqueTokens(p.entries) && RepliesMatch(RefreshTargets(p.entries), outcomes)
    requires i < |p.entries| && p.entries[i].instance.status == Connecting
    ensures exists k :: 0 <= k < |outcomes| && RefreshTargets(p.entries)[k] == p.entries[i].instance.token
                        && Refreshed(p.entries[i], outcomes[k], Tick(p, outcomes).entries[i])
  {
    var k := |RefreshTargets(p.entries[..i])|;
    RefreshTargetAt(p.entries, i);
    RefreshTargetsDistinct(p.entries);
    RefreshEachAbsorbs(p, RefreshTargets(p.entries), outcomes, i, k);
  }

  /** With one record per token, a tick leaves every record that is not connecting untouched. */
  lemma TickLeavesSettledEntries(p: Page, outcomes: seq<Result<ApiResponse, string>>, i: nat)
    requires |outcomes| == |RefreshTargets(p.entries)|
    requires UniqueTokens(p.entries)
    requires i < |p.entries| && p.entries[i].instance.status != Connecting
    ensures Tick(p, outcomes).entries[i] == p.entries[i]
  {
  }

  /** The three ways a record is shown. */
  datatype Badge = ConnectedBadge | ConnectingBadge | DisconnectedBadge
  datatype Icon = WifiIcon | SpinnerIcon | WifiOffIcon

  /** `getStatusBadge`: connected when linked and logged in, else connecting by status, else disconnected. */
  function StatusBadge(e: Entry): (b: Badge)
    ensures b == ConnectedBadge <==> e.connected && e.loggedIn
    ensures b == ConnectingBadge <==> !(e.connected && e.loggedIn) && e.instance.status == Connecting
  {
    if e.connected && e.loggedIn then ConnectedBadge
    else if e.instance.status == Connecting then ConnectingBadge
    else DisconnectedBadge
  }

  /** `getStatusIcon`, written out with its own branches. */
  function StatusIcon(e: Entry): (i: Icon)
    ensures i == WifiIcon <==> e.connected && e.loggedIn
    ensures i == SpinnerIcon <==> !(e.connected && e.loggedIn) && e.instance.status == Connecting
  {
    if e.connected && e.loggedIn then WifiIcon
    else if e.instance.status == Connecting then SpinnerIcon
    else WifiOffIcon
  }

  function IconOf(b: Badge): Icon {
    match b
    case ConnectedBadge => WifiIcon
    case ConnectingBadge => SpinnerIcon
    case DisconnectedBadge => WifiOffIcon
  }

  /** The badge and the icon of a record always tell the same story. */
  lemma BadgeAndIconAgree(e: Entry)
    ensures StatusIcon(e) == IconOf(StatusBadge(e))
  {
  }

  /** The QR image is shown only for a connecting record that carries one. */
  predicate ShowsQrCode(e: Entry) {
    Truthy(e.instance.qrcode) && e.instance.status == Connecting
  }

  /** The pairing code is shown only for a connecting record that carries one. */
  predicate ShowsPairCode(e: Entry) {
    Truthy(e.instance.paircode) && e.instance.status == Connecting
  }

  /** The phone field and connect button are shown for a record neither connected nor connecting. */
  predicate ShowsConnectActions(e: Entry) {
    !e.connected && e.instance.status != Connecting
  }

  /**
   * A record showing a pairing artifact offers no connect action and is among
   * those the next tick polls; one offering connect actions is never polled on
   * its own account and never shows the connected badge.
   */
  lemma RenderGuardsAgree(es: seq<Entry>, i: nat)
    requires i < |es|
    ensures ShowsQrCode(es[i]) || ShowsPairCode(es[i]) ==>
              !ShowsConnectActions(es[i]) && es[i].instance.token in RefreshTargets(es)
    ensures ShowsConnectActions(es[i]) ==> StatusBadge(es[i]) == DisconnectedBadge
  {
    assert es[i] in es;
  }
}

=== FILE: text.dfy ===
/**
 * The string operations the JavaScript code relies on, written over `seq<char>`:
 * `String.prototype.trim`, truthiness of an optional string, decimal rendering of
 * an HTTP status code inside a template literal, and splitting a URL path on `/`.
 */
module Text {
  import opened Wrappers

  /** The code points ECMAScript counts as WhiteSpace or LineTerminator: the set `trim` strips. */
  const Spaces: set<char> := {
    '\t', '\n', '\U{000B}', '\U{000C}', '\r', ' ', '\U{00A0}', '\U{1680}',
    '\U{2000}', '\U{2001}', '\U{2002}', '\U{2003}', '\U{2004}', '\U{2005}',
    '\U{2006}', '\U{2007}', '\U{2008}', '\U{2009}', '\U{200A}',
    '\U{2028}', '\U{2029}', '\U{202F}', '\U{205F}', '\U{3000}', '\U{FEFF}'
  }

  predicate IsSpace(c: char) {
    c in Spaces
  }

  /** The characters matched by the regular-expression class `\d` (ASCII digits only). */
  predicate IsDigit(c: char) {
    '0' <= c <= '9'
  }

  predicate AllSpace(s: string) {
    forall k :: 0 <= k < |s| ==> IsSpace(s[k])
  }

  predicate AllDigits(s: string) {
    forall k :: 0 <= k < |s| ==> IsDigit(s[k])
  }

  /** JavaScript truthiness of a `string | null | undefined`: present and non-empty. */
  predicate Truthy(o: Option<string>) {
    o.Some? && o.value != ""
  }

  /** End of the run of white space that starts at `k`. */
  function SpaceRunEnd(s: string, k: nat): (e: nat)
    requires k <= |s|
    ensures k <= e <= |s|
    ensures forall m :: k <= m < e ==> IsSpace(s[m])
    ensures e < |s| ==> !IsSpace(s[e])
    decreases |s| - k
  {
    if k < |s| && IsSpace(s[k]) then SpaceRunEnd(s, k + 1) else k
  }

  /** Start of the run of white space that ends at `k`, not going below `lo`. */
  function SpaceRunStart(s: string, lo: nat, k: nat): (b: nat)
    requires lo <= k <= |s|
    ensures lo <= b <= k
    ensures forall m :: b <= m < k ==> IsSpace(s[m])
    ensures b > lo ==> !IsSpace(s[b - 1])
    decreases k
  {
    if k > lo && IsSpace(s[k - 1]) then SpaceRunStart(s, lo, k - 1) else k
  }

  /**
   * `s.trim()`: the longest slice of `s` that neither starts nor ends with white
   * space, once every white-space character around it is dropped.
   */
  function Trim(s: string): (r: string)
    ensures |r| <= |s|
    ensures r == [] <==> AllSpace(s)
    ensures r != [] ==> !IsSpace(r[0]) && !IsSpace(r[|r| - 1])
    ensures exists i :: 0 <= i <= |s| - |r| && r == s[i..i + |r|]
                        && AllSpace(s[..i]) && AllSpace(s[i + |r|..])
  {
    var i := SpaceRunEnd(s, 0);
    var j := SpaceRunStart(s, i, |s|);
    assert AllSpace(s) ==> i == |s|;
    assert i == j ==> AllSpace(s);
    assert AllSpace(s[..i]) && AllSpace(s[j..]);
    s[i..j]
  }

  function DigitChar(d: nat): (c: char)
    requires d < 10
    ensures IsDigit(c)
  {
    ['0', '1', '2', '3', '4', '5', '6', '7', '8', '9'][d]
  }

  function DigitValue(c: char): (d: nat)
    requires IsDigit(c)
    ensures d < 10
  {
    (c as int - '0' as int) as nat
  }

  /** `${n}` for a non-negative integer: its decimal digits, without leading zeros. */
  function NatToString(n: nat): (r: string)
    ensures |r| >= 1
    ensures AllDigits(r)
    ensures r[0] == '0' ==> n == 0 && |r| == 1
    decreases n
  {
    if n < 10 then [DigitChar(n)] else NatToString(n / 10) + [DigitChar(n % 10)]
  }

  /** The number a string of decimal digits denotes. */
  function DigitsValue(s: string): nat
    requires AllDigits(s)
  {
    if s == [] then 0 else 10 * DigitsValue(s[..|s| - 1]) + DigitValue(s[|s| - 1])
  }

  /** Reading back a rendered number gives the number: the rendering loses nothing. */
  lemma {:induction false} NatToStringRoundTrip(n: nat)
    ensures DigitsValue(NatToString(n)) == n
    decreases n
  {
    if n >= 10 {
      var r := NatToString(n);
      NatToStringRoundTrip(n / 10);
      assert r[..|r| - 1] == NatToString(n / 10);
      assert DigitValue(DigitChar(n % 10)) == n % 10;
    } else {
      assert DigitValue(DigitChar(n)) == n;
    }
  }

  /** Distinct numbers render to distinct strings. */
  lemma NatToStringInjective(a: nat, b: nat)
    requires NatToString(a) == NatToString(b)
    ensures a == b
  {
    NatToStringRoundTrip(a);
    NatToStringRoundTrip(b);
  }

  /** A message `prefix + ${n}` names `n`: the number can be read back from it. */
  lemma SuffixNamesNumber(prefix: string, n: nat)
    ensures var m := prefix + NatToString(n);
            AllDigits(m[|prefix|..]) && DigitsValue(m[|prefix|..]) == n
  {
    var m := prefix + NatToString(n);
    assert m[|prefix|..] == NatToString(n);
    NatToStringRoundTrip(n);
  }

  /**
   * `s.split('/')`: the segments between slashes, read one character at a time;
   * a `/` starts a new segment, any other character joins the current first one.
   */
  function Split(s: string): (parts: seq<string>)
    ensures |parts| >= 1
  {
    if s == [] then [""]
    else
      var rest := Split(s[1..]);
      if s[0] == '/' then [""] + rest else [[s[0]] + rest[0]] + rest[1..]
  }

  /** `parts.join('/')`. */
  function Join(parts: seq<string>): string
    requires |parts| >= 1
  {
    if |parts| == 1 then parts[0] else parts[0] + "/" + Join(parts[1..])
  }

  predicate NoSlash(s: string) {
    forall k :: 0 <= k < |s| ==> s[k] != '/'
  }

  /** A string without `/` is one segment. */
  lemma {:induction false} SplitNoSlash(s: string)
    requires NoSlash(s)
    ensures Split(s) == [s]
    decreases |s|
  {
    if s != [] {
      SplitNoSlash(s[1..]);
      assert [s[0]] + s[1..] == s;
    }
  }

  /** A leading `/` closes an empty first segment. */
  lemma SplitSlash(t: string)
    ensures Split(['/'] + t) == [""] + Split(t)
  {
    assert (['/'] + t)[1..] == t;
  }

  /** Any other leading character belongs to the first segment. */
  lemma SplitChar(c: char, t: string)
    requires c != '/'
    ensures Split([c] + t) == [[c] + Split(t)[0]] + Split(t)[1..]
  {
    assert ([c] + t)[1..] == t;
  }

  /** A slash-free segment followed by `/` is split off whole, ahead of the rest. */
  lemma {:induction false} SplitSegment(seg: string, rest: string)
    requires NoSlash(seg)
    ensures Split(seg + "/" + rest) == [seg] + Split(rest)
    decreases |seg|
  {
    if seg == [] {
      assert seg + "/" + rest == ['/'] + rest;
      SplitSlash(rest);
    } else {
      var c, tail := seg[0], seg[1..];
      var t := tail + "/" + rest;
      assert seg + "/" + rest == [c] + t;
      SplitSegment(tail, rest);
      SplitChar(c, t);
      assert [c] + tail == seg;
    }
  }

  /** Joining slash-free segments and splitting the result gives the segments back. */
  lemma {:induction false} SplitJoin(parts: seq<string>)
    requires |parts| >= 1
    requires forall j :: 0 <= j < |parts| ==> NoSlash(parts[j])
    ensures Split(Join(parts)) == parts
    decreases |parts|
  {
    if |parts| == 1 {
      SplitNoSlash(parts[0]);
    } else {
      SplitSegment(parts[0], Join(parts[1..]));
      SplitJoin(parts[1..]);
      assert parts == [parts[0]] + parts[1..];
    }
  }
}

=== FILE: whatsapp_api.dfy ===
/**
 * The browser-side client of lib/whatsapp-api.ts: the HTTP request each of the
 * five `WhatsAppApiService` methods issues against the application's own
 * `/api/whatsapp` routes, the rule that turns a reply into a resolved value or a
 * thrown message, and the admin-token check of `createWhatsAppApiService`.
 * `fetch` itself is not modelled: its outcome is an input.
 */
module WhatsAppApi {
  import opened Wrappers
  import opened Text
  import opened Instances

  const BaseUrl: string := "/api/whatsapp"

  /** The collection every request addresses: the instances under the base. */
  const InstancesPath: string := BaseUrl + "/instances"

  datatype HttpMethod = GET | POST | DELETE

  datatype CreateInstanceRequest = CreateInstanceRequest(
    name: string,
    systemName: string,
    adminField01: Option<string>,
    adminField02: Option<string>)

  /** The connect body: `{}` when `phone` is `None`, `{phone}` otherwise. */
  datatype ConnectInstanceRequest = ConnectInstanceRequest(phone: Option<string>)

  /** The JSON bodies the service sends, before serialisation. */
  datatype Body =
    | CreateBody(create: CreateInstanceRequest)
    | ConnectBody(connect: ConnectInstanceRequest)
    | ActionBody(action: string)

  datatype HttpRequest = HttpRequest(
    verb: HttpMethod,
    path: string,
    headers: seq<(string, string)>,
    body: Option<Body>)

  /** A call of one of the five service methods, with its arguments. */
  datatype ServiceCall =
    | CreateInstance(data: CreateInstanceRequest)
    | ConnectInstance(token: string, request: ConnectInstanceRequest)
    | GetInstanceStatus(token: string)
    | DisconnectInstance(token: string)
    | DeleteInstance(token: string)

  const AcceptJson: (string, string) := ("Accept", "application/json")
  const ContentTypeJson: (string, string) := ("Content-Type", "application/json")

  /** `/api/whatsapp/instances/<token>`: the path of one instance. */
  function InstancePath(token: string): (p: string)
    ensures |p| > |InstancesPath| && p[..|InstancesPath|] == InstancesPath
  {
    InstancesPath + "/" + token
  }

  /** `/api/whatsapp/instances/<token>/<action>`: a sub-resource of one instance. */
  function ActionPath(token: string, action: string): (p: string)
    ensures |p| > |InstancePath(token)| && p[..|InstancePath(token)|] == InstancePath(token)
  {
    InstancePath(token) + "/" + action
  }

  /** The request a service method sends. */
  function Request(call: ServiceCall): (r: HttpRequest)
    ensures r.verb == GET <==> call.GetInstanceStatus?
    ensures r.verb == DELETE <==> call.DeleteInstance?
    ensures r.body.Some? <==> r.verb == POST
    ensures AcceptJson in r.headers
    ensures ContentTypeJson in r.headers <==> r.body.Some?
    ensures call.CreateInstance? ==> r.body == Some(CreateBody(call.data))
    ensures call.ConnectInstance? ==> r.body == Some(ConnectBody(call.request))
    ensures call.DisconnectInstance? ==> r.body == Some(ActionBody("disconnect"))
    ensures |r.path| >= |InstancesPath| && r.path[..|InstancesPath|] == InstancesPath
    ensures call.CreateInstance? ==> r.path == InstancesPath
    ensures !call.CreateInstance? ==>
              |r.path| >= |InstancePath(call.token)| && r.path[..|InstancePath(call.token)|] == InstancePath(call.token)
  {
    var jsonHeaders := [AcceptJson, ContentTypeJson];
    match call
    case CreateInstance(data) =>
      HttpRequest(POST, InstancesPath, jsonHeaders, Some(CreateBody(data)))
    case ConnectInstance(token, request) =>
      PrefixOfPrefix(ActionPath(token, "connect"), InstancePath(token), InstancesPath);
      HttpRequest(POST, ActionPath(token, "connect"), jsonHeaders, Some(ConnectBody(request)))
    case GetInstanceStatus(token) =>
      PrefixOfPrefix(ActionPath(token, "status"), InstancePath(token), InstancesPath);
      HttpRequest(GET, ActionPath(token, "status"), [AcceptJson], None)
    case DisconnectInstance(token) =>
      HttpRequest(POST, InstancePath(token), jsonHeaders, Some(ActionBody("disconnect")))
    case DeleteInstance(token) =>
      HttpRequest(DELETE, InstancePath(token), [AcceptJson], None)
  }

  /** A prefix of a prefix is a prefix. */
  lemma PrefixOfPrefix(s: string, p: string, q: string)
    requires |s| >= |p| && s[..|p|] == p
    requires |p| >= |q| && p[..|q|] == q
    ensures |s| >= |q| && s[..|q|] == q
  {
    assert s[..|q|] == s[..|p|][..|q|];
  }

  /** The route handlers under app/api/whatsapp/instances, by directory and exported method. */
  datatype Endpoint =
    | InitRoute
    | ConnectRoute(token: string)
    | StatusRoute(token: string)
    | ActionRoute(token: string)
    | DeleteRoute(token: string)

  /**
   * The file-system routing of those handlers: the path is split on `/`, a
   * `[token]` directory matches any one non-empty segment, and a directory only
   * answers the methods its route file exports.
   */
  function Dispatch(verb: HttpMethod, path: string): (e: Option<Endpoint>)
    ensures e.Some? ==> |Split(path)| >= 4 && Split(path)[..4] == ["", "api", "whatsapp", "instances"]
    ensures e.Some? && !e.value.InitRoute? ==> e.value.token != "" && e.value.token in Split(path)
  {
    var segments := Split(path);
    if |segments| < 4 || segments[..4] != ["", "api", "whatsapp", "instances"] then None
    else
      var rest := segments[4..];
      if rest == [] then
        if verb == POST then Some(InitRoute) else None
      else if rest[0] == "" || |rest| > 2 then None
      else if |rest| == 1 then
        match verb
        case POST => Some(ActionRoute(rest[0]))
        case DELETE => Some(DeleteRoute(rest[0]))
        case GET => None
      else if rest[1] == "connect" && verb == POST then Some(ConnectRoute(rest[0]))
      else if rest[1] == "status" && verb == GET then Some(StatusRoute(rest[0]))
      else None
  }

  /** The handler each service method is written against. */
  function Intended(call: ServiceCall): Endpoint {
    match call
    case CreateInstance(_) => InitRoute
    case ConnectInstance(token, _) => ConnectRoute(token)
    case GetInstanceStatus(token) => StatusRoute(token)
    case DisconnectInstance(token) => ActionRoute(token)
    case DeleteInstance(token) => DeleteRoute(token)
  }

  /** The characters a token may hold for the URL parser to leave it as written. */
  predicate TokenChar(c: char) {
    'a' <= c <= 'z' || 'A' <= c <= 'Z' || '0' <= c <= '9' || c == '-' || c == '_'
  }

  /**
   * Tokens are interpolated into the path verbatim. One of ASCII letters,
   * digits, `-` and `_` holds none of `/`, `\`, `?`, `#` or `%` and is never a
   * `.` or `..` segment, so URL parsing and the percent-decoding of `[token]`
   * hand it to the handler unchanged.
   */
  predicate PathSafe(token: string) {
    token != "" && forall k :: 0 <= k < |token| ==> TokenChar(token[k])
  }

  /** The segments of the collection path `/api/whatsapp/instances`. */
  lemma InstancesPathSegments()
    ensures Split(InstancesPath) == ["", "api", "whatsapp", "instances"]
  {
    var parts := ["", "api", "whatsapp", "instances"];
    assert Join(parts) == InstancesPath;
    SplitJoin(parts);
  }

  /** The segments of `/api/whatsapp/instances/<token>`. */
  lemma InstancePathSegments(token: string)
    requires token != "" && NoSlash(token)
    ensures Split(InstancePath(token)) == ["", "api", "whatsapp", "instances", token]
  {
    var parts := ["", "api", "whatsapp", "instances", token];
    assert Join(parts[4..]) == token;
    assert Join(parts[3..]) == "instances" + "/" + token;
    assert Join(parts[2..]) == "whatsapp" + "/" + Join(parts[3..]);
    assert Join(parts[1..]) == "api" + "/" + Join(parts[2..]);
    assert Join(parts) == InstancePath(token);
    SplitJoin(parts);
  }

  /** The segments of `/api/whatsapp/instances/<token>/<action>`. */
  lemma ActionPathSegments(token: string, action: string)
    requires token != "" && NoSlash(token) && action != "" && NoSlash(action)
    ensures Split(ActionPath(token, action)) == ["", "api", "whatsapp", "instances", token, action]
  {
    var parts := ["", "api", "whatsapp", "instances", token, action];
    assert Join(parts[5..]) == action;
    assert Join(parts[4..]) == token + "/" + action;
    assert Join(parts[3..]) == "instances" + "/" + Join(parts[4..]);
    assert Join(parts[2..]) == "whatsapp" + "/" + Join(parts[3..]);
    assert Join(parts[1..]) == "api" + "/" + Join(parts[2..]);
    assert Join(parts) == ActionPath(token, action);
    SplitJoin(parts);
  }

  /**
   * Every request the service sends reaches the handler its method is written
   * against, with the token recovered unchanged, as long as the token is
   * non-empty and made of ASCII letters, digits, `-` and `_`.
   */
  lemma RequestReachesIntendedRoute(call: ServiceCall)
    requires !call.CreateInstance? ==> PathSafe(call.token)
    ensures Dispatch(Request(call).verb, Request(call).path) == Some(Intended(call))
  {
    var r := Request(call);
    if !call.CreateInstance? {
      assert NoSlash(call.token);
    }
    match call
    case CreateInstance(_) =>
      InstancesPathSegments();
      assert Split(r.path)[4..] == [];
    case ConnectInstance(token, _) =>
      ActionPathSegments(token, "connect");
      assert Split(r.path)[4..] == [token, "connect"];
    case GetInstanceStatus(token) =>
      ActionPathSegments(token, "status");
      assert Split(r.path)[4..] == [token, "status"];
    case DisconnectInstance(token) =>
      InstancePathSegments(token);
      assert Split(r.path)[4..] == [token];
    case DeleteInstance(token) =>
      InstancePathSegments(token);
      assert Split(r.path)[4..] == [token];
  }

  /** A reply from the application's route: status code and the two ways its body is read. */
  datatype Reply<T> = Reply(
    status: nat,
    // the body's `error` property, when the body parses as an object carrying a string `error`
    errorField: Option<string>,
    // the body as the resolved value, or the message of the parse failure
    json: Result<T, string>)

  /** The outcome of `fetch`: it rejects (network failure) or resolves to a reply. */
  datatype Fetched<T> = NetworkError(message: string) | Received(reply: Reply<T>)

  /** `response.ok`. */
  predicate IsOk(status: nat) {
    200 <= status <= 299
  }

  const FallbackPrefix: string := "HTTP error! status: "

  /** The message thrown on a non-OK reply: the body's `error` when truthy, else a generic one. */
  function ErrorMessage(status: nat, errorField: Option<string>): (m: string)
    ensures m != ""
    ensures Truthy(errorField) ==> m == errorField.value
    ensures !Truthy(errorField) ==> m == FallbackPrefix + NatToString(status)
  {
    if Truthy(errorField) then errorField.value else FallbackPrefix + NatToString(status)
  }

  /** The generic message names the status code: it can be read back from the message. */
  lemma FallbackNamesStatus(status: nat, errorField: Option<string>)
    requires !Truthy(errorField)
    ensures var m := ErrorMessage(status, errorField);
            |m| > |FallbackPrefix| && m[..|FallbackPrefix|] == FallbackPrefix
            && AllDigits(m[|FallbackPrefix|..]) && DigitsValue(m[|FallbackPrefix|..]) == status
  {
    SuffixNamesNumber(FallbackPrefix, status);
  }

  /**
   * How every one of the five methods settles: a network failure rethrows, a
   * non-OK reply throws the error message, an OK reply resolves to the parsed
   * body (or throws when the body is not JSON).
   */
  function Settle<T>(f: Fetched<T>): (r: Result<T, string>)
    ensures r.Success? <==> f.Received? && IsOk(f.reply.status) && f.reply.json.Success?
    ensures r.Success? ==> r.value == f.reply.json.value
    ensures f.NetworkError? ==> r == Failure(f.message)
    ensures f.Received? && !IsOk(f.reply.status) ==>
              r == Failure(ErrorMessage(f.reply.status, f.reply.errorField))
    ensures f.Received? && IsOk(f.reply.status) && f.reply.json.Failure? ==> r == Failure(f.reply.json.error)
  {
    match f
    case NetworkError(message) => Failure(message)
    case Received(reply) =>
      if !IsOk(reply.status) then Failure(ErrorMessage(reply.status, reply.errorField))
      else if reply.json.Failure? then Failure(reply.json.error)
      else Success(reply.json.value)
  }

  /** The service object: it only holds the base URL of the application's routes. */
  datatype Service = Service(baseUrl: string)

  const MissingTokenMessage: string := "WHATSAPP_ADMIN_TOKEN environment variable is not set"

  function Lookup(env: map<string, string>, key: string): Option<string> {
    if key in env then Some(env[key]) else None
  }

  /**
   * `createWhatsAppApiService()`: it throws exactly when neither admin-token
   * variable is set to a non-empty value; otherwise it builds a service whose
   * base URL is the application's route prefix.
   */
  function CreateService(env: map<string, string>): (r: Result<Service, string>)
    ensures r.Failure? <==> (!Truthy(Lookup(env, "WHATSAPP_ADMIN_TOKEN"))
                             && !Truthy(Lookup(env, "NEXT_PUBLIC_WHATSAPP_ADMIN_TOKEN")))
    ensures r.Failure? ==> r.error == MissingTokenMessage
    ensures r.Success? ==> r.value.baseUrl == BaseUrl
  {
    var primary := Lookup(env, "WHATSAPP_ADMIN_TOKEN");
    var adminToken := if Truthy(primary) then primary else Lookup(env, "NEXT_PUBLIC_WHATSAPP_ADMIN_TOKEN");
    if !Truthy(adminToken) then Failure(MissingTokenMessage) else Success(Service(BaseUrl))
  }
}

=== FILE: wrappers.dfy ===
/** Optional values and call outcomes shared by every module of the model. */
module Wrappers {

  /** A value that may be missing: a JavaScript `undefined`/`null`, or an absent object key. */
  datatype Option<+T> = None | Some(value: T)

  /** The outcome of a call that can throw: the resolved value or the thrown message. */
  datatype Result<+R, +E> = Success(value: R) | Failure(error: E)
}
